=== FILE: README.md ===
# CRM GraphQL mutations — a Dafny model

This project models the write side of a small Django/GraphQL CRM. The CRM
keeps three tables: customers, products and orders. The model covers:

- the four creation mutations of `schema.py`: `createCustomer`,
  `bulkCreateCustomers`, `createProduct` and `createOrder`, together with the
  phone-number pattern the two customer mutations share;
- the `updateLowStockProducts` mutation and the `low_stock` product filter
  of `crm/schema.py`.

The database is an immutable `Store` value holding one sequence per table,
in insertion order. Identifiers are assigned the way an auto-increment key
assigns them on a fresh table, so the n-th row has id n. Every mutation is
a pure function of the store.

- Each single creation mutation (`CreateCustomer`, `CreateProduct`,
  `CreateOrder`) returns either the new store with the created entity, or an
  `Error` and no store at all. So a rejected call, including one whose
  `transaction.atomic` block is abandoned, leaves the database as it was.
- `BulkCreateCustomers` never fails as a whole. It returns a `BulkOutcome`:
  the store after the accepted items, the customers created, and the error
  of each rejected item. Accepted items stay created when later ones fail.
- `UpdateLowStockProducts` never fails. It returns a `RestockReport`: the
  new store, the restocked products and the message.

Modules:

- `Wrappers` — `Option` and `Result`.
- `Text` — decimal rendering of a count and reading it back. The restock
  message starts with the count.
- `Phone` — the pattern `^(\+\d{10,15}|\d{3}-\d{3}-\d{4})$`, written as a
  small automaton (`Run`). It is proved equal to a declarative description
  of the two accepted shapes.
- `Entities` — customers, products, orders and the store. Also the lookups
  the mutations use: email lookup, primary-key lookup, and the `id__in`
  product filter. Also the store invariant `Valid`.
- `Schema` — the four creation mutations.
- `SchemaProperties` — what holds across calls. The invariant is preserved,
  an email is never accepted twice, a batch is the left-to-right sequence of
  single creations, and an order depends only on the requested ids that exist.
- `Restock` — the low-stock filter and the restock mutation.
- `RestockProperties` — the filter neither repeats nor drops a low row and keeps table order, one sweep clears every
  low product, a second sweep changes nothing, and the invariant survives.
- `Scenarios` — worked examples proved about the model: the sample data of
  `seed_db.py`, further phone inputs, a three-item batch and a
  three-product restock.

Prices are integer cents. `datetime.fromisoformat` and the current time are
parameters of `CreateOrder`: `parseIso` and `now`.

Three points where the code's behaviour is easy to misread, and which the
model follows exactly:

- **Date check order.** `createOrder` looks up the customer first, then
  resolves the products, and only then parses the date (`schema.py:116-128`).
- **Bad date error.** An unparsable date raises the parser's own
  `ValueError`, not a validation error. The model calls it
  `InvalidDateFormat`.
- **Bulk error messages.** `bulkCreateCustomers` records `str(e)` of a Django
  `ValidationError`, which renders its message as a one-element list. So the
  recorded text is `['Email x already exists']`, not the bare sentence.

## Model

| member | source | states |
|---|---|---|
| Phone.MatchesIffShape | schema.py:46-47 | the compiled pattern accepts a string exactly when it is `+` followed by 10 to 15 digits, or three digits, `-`, three digits, `-`, four digits |
| Phone.PhoneAccepted | schema.py:45-48 | the phone check passes exactly when the phone is absent, empty, or of one of the two accepted shapes |
| Entities.HasEmail | schema.py:41 | the email-exists test is true exactly when some stored customer has that exact email (`EmailTaken`, the one definition the contracts use) |
| Entities.FindCustomer | schema.py:116-119 | the primary-key lookup finds a stored customer with that id, and finds none exactly when no customer has it |
| Entities.Resolve | schema.py:121 | the `id__in` filter keeps exactly the stored products whose id was requested, never more rows than the table |
| Entities.ResolveCounts | schema.py:121 | the `id__in` filter yields each matching row exactly as often as the table holds it and no other row, so it never repeats a product |
| Entities.ResolveOnlyExisting | schema.py:121 | requested ids that name no product do not change which products the filter returns |
| Entities.ResolveSameOnTable | schema.py:121 | two requests naming the same existing ids resolve to the same product list |
| Entities.TotalsIgnoreStock | schema.py:131 | an order total depends only on the products' ids and prices, so changing stock leaves every stored total correct |
| Schema.CreateCustomer | schema.py:39-51 | a taken email is rejected first as a duplicate; otherwise a present, non-empty, ill-shaped phone is rejected; otherwise exactly one customer with the given fields and the next id is appended and nothing else changes |
| Schema.BulkCreateCustomers | schema.py:67-84 | every input item yields exactly one created customer or one error, and the store gains exactly the created customers in input order |
| Schema.BulkOutcome.Errors | schema.py:74-82 | one text per rejected item, in order; a duplicate email reads `['Email <email> already exists']` and a bad phone `['Phone format invalid for <phone>']` |
| Schema.CreateProduct | schema.py:96-103 | a price of zero or less is rejected first; otherwise a negative stock is rejected; otherwise one product with a positive price, the given or default stock of 0 and the next id is appended |
| Schema.CreateOrder | schema.py:115-134 | an unknown customer is rejected first, then a request naming no existing product, then an unparsable non-empty date; on success the order links exactly the existing requested products, its total is the sum of their prices, its date is the parsed one or the current time, and only the orders table grows |
| SchemaProperties.CreateCustomerPreservesValid | schema.py:39-51 | a successful customer creation keeps the store invariant, in particular email uniqueness |
| SchemaProperties.CreateProductPreservesValid | schema.py:96-103 | a successful product creation keeps the store invariant; existing orders keep their resolved products and totals |
| SchemaProperties.CreateOrderPreservesValid | schema.py:115-134 | a successful order creation keeps the store invariant |
| SchemaProperties.BulkPreservesValid | schema.py:71-84 | a whole batch keeps the store invariant, whatever mix of accepted and rejected items it holds |
| SchemaProperties.SameEmailNeverTwice | schema.py:41-42 | after a customer is created with an email, creating another with the same email fails as a duplicate |
| SchemaProperties.BulkItemOutcome | schema.py:71-82 | item i of a batch is judged by the single-customer rules against the store left by items before it; it adds one customer or one error and the batch continues |
| SchemaProperties.BulkRejectsOnlyInputErrors | schema.py:72-82 | a batch rejects items only for a taken email or an ill-shaped phone, the two checks of the loop body |
| SchemaProperties.BulkCustomersGrow | schema.py:79-80 | later items never remove customers: the table after i items is a prefix of the table after any later item |
| SchemaProperties.BulkCreatedEmailStays | schema.py:73-80 | an email an item was created with is taken in every later store of the batch |
| SchemaProperties.BulkDuplicateInBatch | schema.py:73-74 | a later item of the batch that repeats a created item's email is rejected as a duplicate |
| SchemaProperties.OrderDependsOnlyOnExistingIds | schema.py:121-131 | two requests that name the same existing products, whatever unknown or repeated ids they add, create the same order or fail the same way |
| Text.LeadingNumberOfDecimal | crm/schema.py:84 | the count written at the head of a message reads back as the same count when the text after it does not start with a digit |
| Restock.LowOnly | crm/schema.py:74 | the `stock__lt=10` filter keeps exactly the products whose stock is below 10, never more rows than the table |
| RestockProperties.LowOnlyCounts | crm/schema.py:74 | the `stock__lt=10` filter yields each low row exactly as often as the table holds it and no other row, so the restock count is the number of low rows |
| Restock.FilterLowStock | crm/schema.py:47-50 | with `low_stock` set, exactly the products below the threshold are kept, as the `stock__lt=10` filter (so each low row as often as the table holds it, by LowOnlyCounts); unset, the query set passes through unchanged |
| Restock.RestockProducts | crm/schema.py:74-80 | each product below the threshold gains 10 stock and keeps its id, name and price; every other product is unchanged; the report lists the raised products in filter order with their new stock |
| Restock.UpdateLowStockProducts | crm/schema.py:73-85 | only product stock changes; the updated list matches the low-stock filter's products with stock raised by 10; the message is the decimal count of updated products followed by " low-stock products updated successfully.", and its leading number reads back as that count |
| RestockProperties.LowOnlyAppend | crm/schema.py:74 | the model's low-stock filter distributes over concatenation: its rows come out in table order, the order the model fixes for the query |
| RestockProperties.RestockClearsLowStock | crm/schema.py:74-79 | with no negative stock, one sweep leaves every product at 10 or above, and the low-stock filter then selects nothing |
| RestockProperties.RestockTwiceIsNoop | crm/schema.py:73-85 | with no negative stock, a second sweep right after the first changes nothing and reports no products |
| RestockProperties.RestockPreservesValid | crm/schema.py:77-79 | the sweep keeps the store invariant, including every order total |
| Scenarios.PhoneInternationalAccepted | seed_db.py:8 | the sample phone `+1234567890` passes the check |
| Scenarios.PhoneLocalAccepted | seed_db.py:9 | the sample phone `123-456-7890` passes the check |
| Scenarios.PhoneExamplesRejected | schema.py:46-48 | `12345` and `+123` fail the check |
| Scenarios.SeedOrderTotal | seed_db.py:4-8 | with the sample products and customer, an order for both products totals 1500.00 |
| Scenarios.RestockExample | crm/schema.py:73-85 | stocks 5, 15 and 3 become 15, 15 and 13, and only the first and third products are reported |
| Scenarios.BulkExample | schema.py:67-84 | a batch of a new customer, a repeat of its email and another new customer creates two customers and records one duplicate-email message |

## Left out

- Query resolvers (`customers`, `products`, `orders`, the connection fields) and the `name_icontains`, `email_icontains` and date-range filters: they only read, and case-insensitive matching needs Unicode case folding, which the model does not have.
- GraphQL types, the root `Mutation` and `Query` classes and the Django models: they are plumbing, not behaviour.
- `crm/cron.py`, `crm/tasks.py`, `crm/cron_jobs/send_order_reminders.py`, `crm/settings.py` and `crm/celery.py`: scheduling, logging, HTTP calls and configuration, outside the mutations.
- Phone.MatchesIffShape: `\d` is read as the ASCII digits 0-9, whereas Python's `\d` also matches other Unicode decimal digits. Python's `$` also accepts one trailing newline, which the model rejects.
- Schema.CreateCustomer: the constant success message "Customer created successfully" of the response is not modelled. The result carries the new store and the customer only.
- Schema.CreateProduct: prices are integer cents, whereas the source takes a float. Floating-point rounding, NaN and infinities are not modelled.
- Schema.CreateProduct: an explicit `null` stock, which makes the source's `stock < 0` raise a `TypeError`, is not modelled. `None` here means "omitted", which defaults to 0.
- Schema.CreateOrder: ids are integers. A non-numeric `customer_id` or product id makes the source raise a `ValueError` from the database layer, and that is not modelled.
- Schema.CreateOrder: the products returned by `id__in` are taken in table order. The source does not fix an order, and the total does not depend on it.
- Restock.LowOnly: the low rows are taken in table order. `crm/schema.py:74` has no `order_by`, so the database may return them in another order. The report order of Restock.RestockProducts and the order stated by RestockProperties.LowOnlyAppend rest on this choice; the set of rows, their counts and the stock changes do not.
- Schema.CreateOrder: like the source, it does not decrement stock.
- Schema.BulkOutcome.Errors: Python's `repr` escaping of the item's email or phone is not modelled. Any character `repr` escapes (quotes, backslash, control and non-printable characters, such as a tab in `12\t3`) is kept as is, and the text is wrapped as `['…']`; `repr` may also switch to double quotes when the text holds a single quote.
- Graphene's 32-bit `Int` limit on `stock`: integers here are unbounded. The ids are `graphene.ID` strings, which the model takes as integers (see the Schema.CreateOrder line above).
- Concurrency: two requests racing past the email check, or overlapping restock runs, are outside a model of one call at a time.
- Restock.RestockProducts: the report entries carry id, name and stock only, the fields the source fills in. The price the source leaves unset is not modelled.
- Date parsing and the clock: `datetime.fromisoformat` is the parameter `parseIso`, and the default order date is the parameter `now`.

=== FILE: entities.dfy ===
/**
  The entity store of the CRM: customers, products and orders, held as an
  immutable value. Each table is a sequence in insertion order, and the
  store assigns identifiers the way an auto-increment primary key does on a
  fresh table: the n-th row of a table has id n.
 */
module Entities {
  import opened Wrappers

  /** A point in time, as the opaque value a date/time parser yields. */
  type Timestamp = int

  datatype Customer = Customer(id: int, name: string, email: string, phone: Option<string>)

  /** `price` is in cents. */
  datatype Product = Product(id: int, name: string, price: int, stock: int)

  /** `total` (cents) is the snapshot taken when the order was created. */
  datatype Order = Order(id: int, customerId: int, productIds: set<int>, total: int, orderDate: Timestamp)

  datatype Store = Store(customers: seq<Customer>, products: seq<Product>, orders: seq<Order>)

  const EmptyStore := Store([], [], [])

  // ---------------------------------------------------------------------------
  // Lookups
  // ---------------------------------------------------------------------------

  /** Some customer of the table uses this email (an exact comparison). */
  ghost predicate EmailTaken(cs: seq<Customer>, email: string) {
    exists i :: 0 <= i < |cs| && cs[i].email == email
  }

  /** The email-exists test, computed by a scan from the newest customer back. */
  function HasEmail(cs: seq<Customer>, email: string): (b: bool)
    ensures b <==> EmailTaken(cs, email)
    decreases |cs|
  {
    if cs == [] then false
    else cs[|cs| - 1].email == email || HasEmail(cs[..|cs| - 1], email)
  }

  /** The customer with this primary key, if any. */
  function FindCustomer(cs: seq<Customer>, id: int): (r: Option<Customer>)
    ensures r.Some? ==> r.value in cs && r.value.id == id
    ensures r.None? <==> forall i :: 0 <= i < |cs| ==> cs[i].id != id
    decreases |cs|
  {
    if cs == [] then None
    else if cs[|cs| - 1].id == id then Some(cs[|cs| - 1])
    else FindCustomer(cs[..|cs| - 1], id)
  }

  function CustomerIds(cs: seq<Customer>): set<int> {
    set c | c in cs :: c.id
  }

  function ProductIds(ps: seq<Product>): set<int> {
    set p | p in ps :: p.id
  }

  /** The products whose ids are in `ids`, in table order (the `id__in` filter). */
  function Resolve(ps: seq<Product>, ids: set<int>): (r: seq<Product>)
    ensures |r| <= |ps|
    ensures forall p :: p in r <==> p in ps && p.id in ids
    decreases |ps|
  {
    if ps == [] then []
    else
      var last := ps[|ps| - 1];
      Resolve(ps[..|ps| - 1], ids) + (if last.id in ids then [last] else [])
  }

  function SumPrices(ps: seq<Product>): int
    decreases |ps|
  {
    if ps == [] then 0 else SumPrices(ps[..|ps| - 1]) + ps[|ps| - 1].price
  }

  // ---------------------------------------------------------------------------
  // The store invariant
  // ---------------------------------------------------------------------------

  ghost predicate EmailsUnique(cs: seq<Customer>) {
    forall i, j :: 0 <= i < j < |cs| ==> cs[i].email != cs[j].email
  }

  ghost predicate CustomerIdsSequential(cs: seq<Customer>) {
    forall i :: 0 <= i < |cs| ==> cs[i].id == i + 1
  }

  ghost predicate ProductIdsSequential(ps: seq<Product>) {
    forall i :: 0 <= i < |ps| ==> ps[i].id == i + 1
  }

  ghost predicate OrderIdsSequential(os: seq<Order>) {
    forall i :: 0 <= i < |os| ==> os[i].id == i + 1
  }

  /** Prices are positive and stock is never negative. */
  ghost predicate ProductsSound(ps: seq<Product>) {
    forall p :: p in ps ==> p.price > 0 && p.stock >= 0
  }

  /** An order names an existing customer, at least one product, only existing
      products, and its total is the sum of those products' prices. */
  ghost predicate OrderSound(s: Store, o: Order) {
    && o.customerId in CustomerIds(s.customers)
    && o.productIds != {}
    && o.productIds <= ProductIds(s.products)
    && o.total == SumPrices(Resolve(s.products, o.productIds))
  }

  ghost predicate Valid(s: Store) {
    && CustomerIdsSequential(s.customers)
    && ProductIdsSequential(s.products)
    && OrderIdsSequential(s.orders)
    && EmailsUnique(s.customers)
    && ProductsSound(s.products)
    && forall o :: o in s.orders ==> OrderSound(s, o)
  }

  lemma EmptyStoreValid()
    ensures Valid(EmptyStore)
  {
  }

  // ---------------------------------------------------------------------------
  // Facts about resolution and totals
  // ---------------------------------------------------------------------------

  lemma ProductIdsAppend(ps: seq<Product>, p: Product)
    ensures ProductIds(ps + [p]) == ProductIds(ps) + {p.id}
  {
    assert forall q :: q in ps + [p] <==> q in ps || q == p;
  }

  lemma CustomerIdsAppend(cs: seq<Customer>, c: Customer)
    ensures CustomerIds(cs + [c]) == CustomerIds(cs) + {c.id}
  {
    assert forall d :: d in cs + [c] <==> d in cs || d == c;
  }

  /** With sequential ids, every id in the table is at most its length. */
  lemma ProductIdsBounded(ps: seq<Product>)
    requires ProductIdsSequential(ps)
    ensures forall id :: id in ProductIds(ps) ==> 1 <= id <= |ps|
  {
    forall id | id in ProductIds(ps) ensures 1 <= id <= |ps| {
      var p :| p in ps && p.id == id;
      var i :| 0 <= i < |ps| && ps[i] == p;
    }
  }

  /** A product appended to the table joins a resolution only if its id was asked for. */
  lemma {:induction false} ResolveAppend(ps: seq<Product>, p: Product, ids: set<int>)
    ensures Resolve(ps + [p], ids) == Resolve(ps, ids) + (if p.id in ids then [p] else [])
  {
    assert (ps + [p])[..|ps + [p]| - 1] == ps;
  }

  /** The `id__in` filter yields each matching row exactly as often as the
      table holds it, and no other row. */
  lemma {:induction false} ResolveCounts(ps: seq<Product>, ids: set<int>)
    ensures forall p :: multiset(Resolve(ps, ids))[p] == if p.id in ids then multiset(ps)[p] else 0
    decreases |ps|
  {
    if ps != [] {
      var init := ps[..|ps| - 1];
      var last := ps[|ps| - 1];
      assert ps == init + [last];
      ResolveCounts(init, ids);
    }
  }

  /** Ids that name no product change nothing: resolving `ids` is resolving
      its intersection with the table's ids. */
  lemma {:induction false} ResolveOnlyExisting(ps: seq<Product>, ids: set<int>)
    ensures Resolve(ps, ids) == Resolve(ps, ids * ProductIds(ps))
    decreases |ps|
  {
    if ps != [] {
      var init := ps[..|ps| - 1];
      var last := ps[|ps| - 1];
      assert ps == init + [last];
      ProductIdsAppend(init, last);
      ResolveOnlyExisting(init, ids);
      ResolveSameOnTable(init, ids * ProductIds(init), ids * ProductIds(ps));
    }
  }

  /** Two id sets that agree on the table's ids resolve to the same products. */
  lemma {:induction false} ResolveSameOnTable(ps: seq<Product>, a: set<int>, b: set<int>)
    requires a * ProductIds(ps) == b * ProductIds(ps)
    ensures Resolve(ps, a) == Resolve(ps, b)
    decreases |ps|
  {
    if ps != [] {
      var init := ps[..|ps| - 1];
      var last := ps[|ps| - 1];
      assert ps == init + [last];
      ProductIdsAppend(init, last);
      assert last.id in a <==> last.id in b by {
        assert last.id in ProductIds(ps);
        assert last.id in a * ProductIds(ps) <==> last.id in b * ProductIds(ps);
      }
      assert a * ProductIds(init) == b * ProductIds(init) by {
        forall x | x in ProductIds(init)
          ensures x in a <==> x in b
        {
          assert x in a * ProductIds(ps) <==> x in b * ProductIds(ps);
        }
      }
      ResolveSameOnTable(init, a, b);
    }
  }

  /** The ids of the resolved products are the requested ids that exist. */
  lemma ResolvedIds(ps: seq<Product>, ids: set<int>)
    ensures ProductIds(Resolve(ps, ids)) == ids * ProductIds(ps)
  {
  }

  /** Two tables that agree on every row's id and price: the same ids resolve
      to products with the same total. Stock and names play no part in a total. */
  lemma {:induction false} TotalsIgnoreStock(ps: seq<Product>, qs: seq<Product>, ids: set<int>)
    requires |ps| == |qs|
    requires forall i :: 0 <= i < |ps| ==> qs[i].id == ps[i].id && qs[i].price == ps[i].price
    ensures SumPrices(Resolve(qs, ids)) == SumPrices(Resolve(ps, ids))
    decreases |ps|
  {
    if ps != [] {
      var n := |ps| - 1;
      var ps', qs' := ps[..n], qs[..n];
      assert forall i :: 0 <= i < n ==> qs'[i].id == ps'[i].id && qs'[i].price == ps'[i].price by {
        forall i | 0 <= i < n ensures qs'[i].id == ps'[i].id && qs'[i].price == ps'[i].price {
          assert qs'[i] == qs[i] && ps'[i] == ps[i];
        }
      }
      TotalsIgnoreStock(ps', qs', ids);
      ResolvedTotalStep(ps, ids);
      ResolvedTotalStep(qs, ids);
    }
  }

  /** The resolved total of a table is that of its prefix plus the last row's
      price when the last row is requested. */
  lemma ResolvedTotalStep(ps: seq<Product>, ids: set<int>)
    requires ps != []
    ensures var n := |ps| - 1;
            SumPrices(Resolve(ps, ids)) ==
              SumPrices(Resolve(ps[..n], ids)) + (if ps[n].id in ids then ps[n].price else 0)
  {
    var n := |ps| - 1;
    var a := Resolve(ps[..n], ids);
    if ps[n].id in ids {
      SumPricesAppend(a, ps[n]);
    } else {
      assert a + [] == a;
    }
  }

  lemma SumPricesAppend(ps: seq<Product>, p: Product)
    ensures SumPrices(ps + [p]) == SumPrices(ps) + p.price
  {
    assert (ps + [p])[..|ps|] == ps;
  }

  lemma ProductIdsPointwise(ps: seq<Product>, qs: seq<Product>)
    requires |ps| == |qs|
    requires forall i :: 0 <= i < |ps| ==> qs[i].id == ps[i].id
    ensures ProductIds(qs) == ProductIds(ps)
  {
    forall id | id in ProductIds(ps) ensures id in ProductIds(qs) {
      var i :| 0 <= i < |ps| && ps[i].id == id;
      assert qs[i] in qs;
    }
    forall id | id in ProductIds(qs) ensures id in ProductIds(ps) {
      var i :| 0 <= i < |qs| && qs[i].id == id;
      assert ps[i] in ps;
    }
  }
}

=== FILE: phone.dfy ===
/**
  The phone-number format accepted by customer creation: the anchored pattern
  `^(\+\d{10,15}|\d{3}-\d{3}-\d{4})$` (schema.py:46 and schema.py:76).

  The pattern is modelled twice: once as the shape it describes (`PhoneShape`)
  and once as the deterministic automaton a regex engine would compile it into
  (`Matches`), and the two are proved to accept the same strings.
 */
module Phone {
  import opened Text
  import opened Wrappers

  const MinIntlDigits: nat := 10
  const MaxIntlDigits: nat := 15
  /** Length of the dashed local form `ddd-ddd-dddd`. */
  const LocalLength: nat := 12

  // ---------------------------------------------------------------------------
  // The declarative shape
  // ---------------------------------------------------------------------------

  /** `+` followed by 10 to 15 digits. */
  predicate InternationalShape(s: string) {
    && 1 + MinIntlDigits <= |s| <= 1 + MaxIntlDigits
    && s[0] == '+'
    && forall j :: 1 <= j < |s| ==> IsDigit(s[j])
  }

  /** Three digits, a dash, three digits, a dash, four digits. */
  predicate LocalShape(s: string) {
    && |s| == LocalLength
    && (forall j :: 0 <= j < 3 ==> IsDigit(s[j]))
    && s[3] == '-'
    && (forall j :: 4 <= j < 7 ==> IsDigit(s[j]))
    && s[7] == '-'
    && (forall j :: 8 <= j < 12 ==> IsDigit(s[j]))
  }

  predicate PhoneShape(s: string) {
    InternationalShape(s) || LocalShape(s)
  }

  // ---------------------------------------------------------------------------
  // The compiled automaton
  // ---------------------------------------------------------------------------

  datatype MatchState =
    | Start
    | International(digits: nat)  // after `+` and this many digits
    | Local(length: nat)          // after this many characters of `ddd-ddd-dddd`
    | Reject

  /** The character the dashed form expects at position n. */
  predicate LocalCharOk(n: nat, c: char) {
    if n == 3 || n == 7 then c == '-' else IsDigit(c)
  }

  function Step(st: MatchState, c: char): MatchState {
    match st
    case Start =>
      if c == '+' then International(0)
      else if LocalCharOk(0, c) then Local(1)
      else Reject
    case International(k) =>
      if IsDigit(c) && k < MaxIntlDigits then International(k + 1) else Reject
    case Local(n) =>
      if n < LocalLength && LocalCharOk(n, c) then Local(n + 1) else Reject
    case Reject => Reject
  }

  /** The state reached by reading s from position i to its end. */
  function Run(st: MatchState, s: string, i: nat): MatchState
    requires i <= |s|
    decreases |s| - i
  {
    if i == |s| then st else Run(Step(st, s[i]), s, i + 1)
  }

  predicate Accepting(st: MatchState) {
    match st
    case International(k) => MinIntlDigits <= k <= MaxIntlDigits
    case Local(n) => n == LocalLength
    case _ => false
  }

  /** The whole string is matched by the anchored pattern. */
  predicate Matches(s: string) {
    Accepting(Run(Start, s, 0))
  }

  // ---------------------------------------------------------------------------
  // The automaton accepts exactly the shape
  // ---------------------------------------------------------------------------

  lemma {:induction false} RunFromReject(s: string, i: nat)
    requires i <= |s|
    ensures Run(Reject, s, i) == Reject
    decreases |s| - i
  {
    if i < |s| {
      RunFromReject(s, i + 1);
    }
  }

  lemma {:induction false} RunInternational(k: nat, s: string, i: nat)
    requires k <= MaxIntlDigits && i <= |s|
    ensures Accepting(Run(International(k), s, i)) <==>
              && (forall j :: i <= j < |s| ==> IsDigit(s[j]))
              && MinIntlDigits <= k + (|s| - i) <= MaxIntlDigits
    decreases |s| - i
  {
    if i < |s| {
      if Step(International(k), s[i]) == Reject {
        RunFromReject(s, i + 1);
      } else {
        RunInternational(k + 1, s, i + 1);
      }
    }
  }

  lemma {:induction false} RunLocal(n: nat, s: string, i: nat)
    requires n <= LocalLength && i <= |s|
    ensures Accepting(Run(Local(n), s, i)) <==>
              && n + (|s| - i) == LocalLength
              && forall j :: i <= j < |s| ==> LocalCharOk(n + (j - i), s[j])
    decreases |s| - i
  {
    if i < |s| {
      if Step(Local(n), s[i]) == Reject {
        RunFromReject(s, i + 1);
      } else {
        RunLocal(n + 1, s, i + 1);
      }
    }
  }

  /** The compiled pattern accepts a string exactly when it has one of the two shapes. */
  lemma MatchesIffShape(s: string)
    ensures Matches(s) <==> PhoneShape(s)
  {
    if s == [] {
      assert Run(Start, s, 0) == Start;
    } else if s[0] == '+' {
      RunInternational(0, s, 1);
      assert !LocalShape(s);
    } else if LocalCharOk(0, s[0]) {
      RunLocal(1, s, 1);
      assert !InternationalShape(s);
      assert LocalShape(s) <==> |s| == LocalLength && forall j :: 1 <= j < |s| ==> LocalCharOk(j, s[j]);
    } else {
      RunFromReject(s, 1);
      assert !LocalShape(s);
    }
  }

  // ---------------------------------------------------------------------------
  // The check customer creation performs
  // ---------------------------------------------------------------------------

  /** `if phone:` skips validation for an absent or empty phone; otherwise the
      pattern must match the whole string. */
  function PhoneAccepted(phone: Option<string>): (ok: bool)
    ensures ok <==> phone.None? || phone.value == [] || PhoneShape(phone.value)
  {
    match phone
    case None => true
    case Some(p) => p == [] || (MatchesIffShape(p); Matches(p))
  }
}

=== FILE: restock.dfy ===
/**
  The low-stock side of the CRM (crm/schema.py): the `low_stock` product
  filter and the updateLowStockProducts mutation, which raises every product
  below the threshold by a fixed amount and reports what it changed.
 */
module Restock {
  import opened Entities
  import opened Text

  const LowStockThreshold: int := 10
  const RestockAmount: int := 10
  const UpdatedSuffix := " low-stock products updated successfully."

  predicate IsLow(p: Product) {
    p.stock < LowStockThreshold
  }

  // ---------------------------------------------------------------------------
  // The low_stock filter
  // ---------------------------------------------------------------------------

  /** The products below the threshold, in table order (`stock__lt=10`). */
  function LowOnly(ps: seq<Product>): (r: seq<Product>)
    ensures |r| <= |ps|
    ensures forall p :: p in r <==> p in ps && IsLow(p)
    decreases |ps|
  {
    if ps == [] then []
    else LowOnly(ps[..|ps| - 1]) + (if IsLow(ps[|ps| - 1]) then [ps[|ps| - 1]] else [])
  }

  /** The `low_stock` filter: when set, only the low products; otherwise the
      query set passes through untouched. */
  function FilterLowStock(ps: seq<Product>, value: bool): (r: seq<Product>)
    ensures value ==> forall p :: p in r <==> p in ps && IsLow(p)
    ensures value ==> r == LowOnly(ps)
    ensures !value ==> r == ps
    ensures |r| <= |ps|
  {
    if value then LowOnly(ps) else ps
  }

  // ---------------------------------------------------------------------------
  // updateLowStockProducts
  // ---------------------------------------------------------------------------

  /** What the mutation reports for each restocked product: id, name and the new stock. */
  datatype ProductView = ProductView(id: int, name: string, stock: int)

  datatype RestockReport = RestockReport(store: Store, updated: seq<ProductView>, message: string)

  /** The row a product becomes after the sweep. */
  function Restocked(p: Product): Product {
    if IsLow(p) then p.(stock := p.stock + RestockAmount) else p
  }

  function View(p: Product): ProductView {
    ProductView(p.id, p.name, p.stock)
  }

  /** The sweep over a product table: the new table and the views of the
      products it raised, in table order. */
  function RestockProducts(ps: seq<Product>): (r: (seq<Product>, seq<ProductView>))
    ensures |r.0| == |ps|
    ensures forall i :: 0 <= i < |ps| ==>
              && r.0[i].id == ps[i].id
              && r.0[i].name == ps[i].name
              && r.0[i].price == ps[i].price
              && (IsLow(ps[i]) ==> r.0[i].stock == ps[i].stock + RestockAmount)
              && (!IsLow(ps[i]) ==> r.0[i] == ps[i])
    ensures |r.1| == |LowOnly(ps)|
    ensures forall k :: 0 <= k < |r.1| ==>
              r.1[k] == ProductView(LowOnly(ps)[k].id, LowOnly(ps)[k].name, LowOnly(ps)[k].stock + RestockAmount)
    decreases |ps|
  {
    if ps == [] then ([], [])
    else
      var (table, updated) := RestockProducts(ps[..|ps| - 1]);
      var p := ps[|ps| - 1];
      (table + [Restocked(p)], updated + (if IsLow(p) then [View(Restocked(p))] else []))
  }

  function UpdatedMessage(count: nat): string {
    NatToDecimal(count) + UpdatedSuffix
  }

  /** The restock mutation: only product stock changes, and the message
      announces how many products were raised. */
  function UpdateLowStockProducts(s: Store): (r: RestockReport)
    ensures r.store.customers == s.customers && r.store.orders == s.orders
    ensures |r.store.products| == |s.products|
    ensures forall i :: 0 <= i < |s.products| ==>
              var (before, after) := (s.products[i], r.store.products[i]);
              && after.id == before.id && after.name == before.name && after.price == before.price
              && (IsLow(before) ==> after.stock == before.stock + RestockAmount)
              && (!IsLow(before) ==> after == before)
    ensures |r.updated| == |FilterLowStock(s.products, true)|
    ensures forall k :: 0 <= k < |r.updated| ==>
              var p := FilterLowStock(s.products, true)[k];
              r.updated[k] == ProductView(p.id, p.name, p.stock + RestockAmount)
    ensures LeadingNumber(r.message) == |r.updated|
    ensures r.message == NatToDecimal(|r.updated|) + UpdatedSuffix
  {
    var (table, updated) := RestockProducts(s.products);
    LeadingNumberOfDecimal(|updated|, UpdatedSuffix);
    RestockReport(s.(products := table), updated, UpdatedMessage(|updated|))
  }
}

=== FILE: restock_properties.dfy ===
/**
  Properties of the restock sweep and the low-stock filter across calls: the
  filter keeps table order, one sweep from a sound store leaves nothing low,
  a second sweep changes nothing, and the store invariant survives the sweep.
 */
module RestockProperties {
  import opened Entities
  import opened Restock

  /** The filter distributes over concatenation, so it keeps the relative
      order of the products it selects. */
  lemma {:induction false} LowOnlyAppend(a: seq<Product>, b: seq<Product>)
    ensures LowOnly(a + b) == LowOnly(a) + LowOnly(b)
    decreases |b|
  {
    if b == [] {
      assert a + b == a;
    } else {
      var n := |b| - 1;
      assert (a + b)[..|a + b| - 1] == a + b[..n];
      assert (a + b)[|a + b| - 1] == b[n];
      var last := if IsLow(b[n]) then [b[n]] else [];
      assert LowOnly(a + b) == LowOnly(a + b[..n]) + last;
      assert LowOnly(b) == LowOnly(b[..n]) + last;
      LowOnlyAppend(a, b[..n]);
    }
  }

  /** The filter yields each low row exactly as often as the table holds it,
      and no other row: a sub-multiset, not merely a subset. */
  lemma {:induction false} LowOnlyCounts(ps: seq<Product>)
    ensures forall p :: multiset(LowOnly(ps))[p] == if IsLow(p) then multiset(ps)[p] else 0
    decreases |ps|
  {
    if ps != [] {
      var init := ps[..|ps| - 1];
      var last := ps[|ps| - 1];
      assert ps == init + [last];
      LowOnlyCounts(init);
    }
  }

  /** With no negative stock, one sweep lifts every product to the threshold
      or above, so afterwards the low-stock filter selects nothing. */
  lemma RestockClearsLowStock(s: Store)
    requires forall p :: p in s.products ==> p.stock >= 0
    ensures var after := UpdateLowStockProducts(s).store.products;
            && (forall i :: 0 <= i < |after| ==> after[i].stock >= LowStockThreshold)
            && FilterLowStock(after, true) == []
  {
    var after := UpdateLowStockProducts(s).store.products;
    assert forall i :: 0 <= i < |after| ==> after[i].stock >= LowStockThreshold by {
      forall i | 0 <= i < |after| ensures after[i].stock >= LowStockThreshold {
        assert s.products[i] in s.products;
      }
    }
    assert LowOnly(after) == [] by {
      NothingLowFiltersEmpty(after);
    }
  }

  lemma {:induction false} NothingLowFiltersEmpty(ps: seq<Product>)
    requires forall i :: 0 <= i < |ps| ==> !IsLow(ps[i])
    ensures LowOnly(ps) == []
    decreases |ps|
  {
    if ps != [] {
      NothingLowFiltersEmpty(ps[..|ps| - 1]);
    }
  }

  /** A second sweep right after the first raises nothing and reports an empty list. */
  lemma RestockTwiceIsNoop(s: Store)
    requires forall p :: p in s.products ==> p.stock >= 0
    ensures var first := UpdateLowStockProducts(s);
            var second := UpdateLowStockProducts(first.store);
            second.store == first.store && second.updated == []
  {
    var first := UpdateLowStockProducts(s);
    var second := UpdateLowStockProducts(first.store);
    RestockClearsLowStock(s);
    var ps := first.store.products;
    assert second.store.products == ps by {
      forall i | 0 <= i < |ps| ensures second.store.products[i] == ps[i] {
        assert !IsLow(ps[i]);
      }
    }
  }

  lemma RestockPreservesValid(s: Store)
    requires Valid(s)
    ensures Valid(UpdateLowStockProducts(s).store)
  {
    var s' := UpdateLowStockProducts(s).store;
    ProductIdsPointwise(s.products, s'.products);
    assert ProductsSound(s'.products) by {
      forall p | p in s'.products ensures p.price > 0 && p.stock >= 0 {
        var i :| 0 <= i < |s'.products| && s'.products[i] == p;
        assert s.products[i] in s.products;
      }
    }
    forall o | o in s'.orders ensures OrderSound(s', o) {
      assert OrderSound(s, o);
      TotalsIgnoreStock(s.products, s'.products, o.productIds);
    }
  }
}

=== FILE: scenarios.dfy ===
/**
  Worked examples, proved about the model: the phones and the Laptop/Phone
  order of the repository's seed script, further phone inputs of each shape,
  a three-product restock and a batch with a duplicate email.
 */
module Scenarios {
  import opened Wrappers
  import opened Entities
  import opened Phone
  import opened Schema
  import opened Restock
  import opened SchemaProperties

  /** Phone inputs of every kind: an absent or empty phone, the seed
      customers' phones, and an international number of eleven digits. */
  lemma PhoneAbsentOrEmptyAccepted()
    ensures PhoneAccepted(None) && PhoneAccepted(Some(""))
  {
  }

  lemma PhoneInternationalAccepted()
    ensures PhoneAccepted(Some("+1234567890"))
  {
    assert Matches("+1234567890");
  }

  lemma PhoneInternationalElevenAccepted()
    ensures PhoneAccepted(Some("+12345678901"))
  {
    assert Matches("+12345678901");
  }

  lemma PhoneLocalAccepted()
    ensures PhoneAccepted(Some("123-456-7890"))
  {
    assert Matches("123-456-7890");
  }

  lemma PhoneExamplesRejected()
    ensures !PhoneAccepted(Some("12345"))
    ensures !PhoneAccepted(Some("+123"))
  {
    assert Run(Start, "12345", 0) == Reject;
    assert Run(Start, "+123", 0) == International(3);
    MatchesIffShape("12345");
    MatchesIffShape("+123");
  }

  function NoDates(text: string): Option<Timestamp> {
    None
  }

  const Laptop := Product(1, "Laptop", 100000, 10)
  const PhoneItem := Product(2, "Phone", 50000, 20)
  const Alice := Customer(1, "Alice", "alice@example.com", Some("+1234567890"))
  const AliceInput := CustomerInput("Alice", "alice@example.com", Some("+1234567890"))

  lemma SeedProducts()
    ensures CreateProduct(EmptyStore, "Laptop", 100000, Some(10)) == Success((Store([], [Laptop], []), Laptop))
    ensures CreateProduct(Store([], [Laptop], []), "Phone", 50000, Some(20)) ==
            Success((Store([], [Laptop, PhoneItem], []), PhoneItem))
  {
    assert EmptyStore.products + [Laptop] == [Laptop];
    assert [Laptop] + [PhoneItem] == [Laptop, PhoneItem];
  }

  lemma SeedCustomer()
    ensures CreateCustomer(Store([], [Laptop, PhoneItem], []), AliceInput) ==
            Success((Store([Alice], [Laptop, PhoneItem], []), Alice))
  {
    PhoneInternationalAccepted();
    var s := Store([], [Laptop, PhoneItem], []);
    assert !HasEmail(s.customers, AliceInput.email);
    assert s.customers + [Alice] == [Alice];
  }

  lemma SeedOrder()
    ensures var o := CreateOrder(Store([Alice], [Laptop, PhoneItem], []), 1, [1, 2], None, NoDates, 0);
            o.Success? && o.value.1.total == 150000 && o.value.1.productIds == {1, 2}
  {
    var s := Store([Alice], [Laptop, PhoneItem], []);
    assert Alice.id in CustomerIds(s.customers);
    assert RequestedExisting(s, [1, 2]) == {1, 2} by {
      assert Laptop in s.products && PhoneItem in s.products;
    }
    assert [Laptop, PhoneItem][..1] == [Laptop];
    assert Resolve([Laptop], {1, 2}) == [Laptop];
    assert Resolve([Laptop, PhoneItem], {1, 2}) == [Laptop, PhoneItem];
    SumPricesAppend([], Laptop);
    SumPricesAppend([Laptop], PhoneItem);
    assert [] + [Laptop] == [Laptop] && [Laptop] + [PhoneItem] == [Laptop, PhoneItem];
  }

  /** Alice orders the Laptop (1000.00) and the Phone (500.00); the order total is 1500.00. */
  lemma SeedOrderTotal()
    ensures var p1 := CreateProduct(EmptyStore, "Laptop", 100000, Some(10));
            p1.Success? &&
            var p2 := CreateProduct(p1.value.0, "Phone", 50000, Some(20));
            p2.Success? &&
            var c := CreateCustomer(p2.value.0, AliceInput);
            c.Success? &&
            var o := CreateOrder(c.value.0, c.value.1.id, [p1.value.1.id, p2.value.1.id], None, NoDates, 0);
            o.Success? && o.value.1.total == 150000
  {
    SeedProducts();
    SeedCustomer();
    SeedOrder();
  }

  /** Stocks 5, 15 and 3: the sweep yields 15, 15 and 13 and reports the first
      and third products only. */
  lemma RestockExample()
    ensures var ps := [Product(1, "A", 100, 5), Product(2, "B", 100, 15), Product(3, "C", 100, 3)];
            var r := UpdateLowStockProducts(Store([], ps, []));
            && |r.store.products| == 3
            && r.store.products[0].stock == 15
            && r.store.products[1].stock == 15
            && r.store.products[2].stock == 13
            && r.updated == [ProductView(1, "A", 15), ProductView(3, "C", 13)]
  {
    var ps := [Product(1, "A", 100, 5), Product(2, "B", 100, 15), Product(3, "C", 100, 3)];
    assert ps[..2] == [ps[0], ps[1]] && ps[..2][..1] == [ps[0]] && ps[..2][..1][..0] == [];
    assert LowOnly(ps) == [ps[0], ps[2]];
  }

  const AnnInput := CustomerInput("Ann", "ann@example.com", None)
  const AnnAgainInput := CustomerInput("Ann B", "ann@example.com", None)
  const BobInput := CustomerInput("Bob", "bob@example.com", Some("123-456-7890"))
  const Ann := Customer(1, "Ann", "ann@example.com", None)
  const Bob := Customer(2, "Bob", "bob@example.com", Some("123-456-7890"))

  lemma BulkExampleFirstItem()
    ensures BulkCreateCustomers(EmptyStore, [AnnInput]) == BulkOutcome(Store([Ann], [], []), [Ann], [])
  {
    assert [AnnInput][..0] == [];
    assert EmptyStore.customers + [Ann] == [Ann];
  }

  const AnnAgain := DuplicateEmail("ann@example.com")
  const AnnRepeated := "['Email ann@example.com already exists']"

  lemma AnnRepeatedMessage()
    ensures BulkDescribe(AnnAgain) == AnnRepeated
  {
  }

  lemma AnnIsRepeated()
    ensures CreateCustomer(Store([Ann], [], []), AnnAgainInput) == Failure(AnnAgain)
  {
    assert Store([Ann], [], []).customers[0].email == "ann@example.com";
  }

  lemma BulkExampleSecondItem()
    ensures BulkCreateCustomers(EmptyStore, [AnnInput, AnnAgainInput]) ==
            BulkOutcome(Store([Ann], [], []), [Ann], [AnnAgain])
  {
    var input := [AnnInput, AnnAgainInput];
    BulkItemOutcome(EmptyStore, input, 1);
    assert input[..2] == input;
    assert input[..1] == [AnnInput];
    BulkExampleFirstItem();
    AnnIsRepeated();
    assert [] + [AnnAgain] == [AnnAgain];
  }

  lemma BobIsCreated()
    ensures CreateCustomer(Store([Ann], [], []), BobInput) == Success((Store([Ann, Bob], [], []), Bob))
  {
    PhoneLocalAccepted();
    assert !HasEmail([Ann], "bob@example.com");
    assert [Ann] + [Bob] == [Ann, Bob];
  }

  lemma BulkExampleThirdItem()
    ensures BulkCreateCustomers(EmptyStore, [AnnInput, AnnAgainInput, BobInput]) ==
            BulkOutcome(Store([Ann, Bob], [], []), [Ann, Bob], [AnnAgain])
  {
    var input := [AnnInput, AnnAgainInput, BobInput];
    assert BulkCreateCustomers(EmptyStore, input[..2]) == BulkOutcome(Store([Ann], [], []), [Ann], [AnnAgain]) by {
      assert input[..2] == [AnnInput, AnnAgainInput];
      BulkExampleSecondItem();
    }
    assert input[2] == BobInput;
    BobIsCreated();
    BulkItemOutcome(EmptyStore, input, 2);
    assert input[..3] == input;
    assert [Ann] + [Bob] == [Ann, Bob];
  }

  /** A batch of a new customer, a repeat of that customer's email and a second
      new customer: two customers created and one message, in input order. */
  lemma BulkExample()
    ensures var r := BulkCreateCustomers(EmptyStore, [AnnInput, AnnAgainInput, BobInput]);
            && |r.customers| == 2
            && r.customers[0].email == "ann@example.com"
            && r.customers[1].email == "bob@example.com"
            && r.Errors() == [AnnRepeated]
  {
    BulkExampleThirdItem();
    AnnRepeatedMessage();
  }
}

=== FILE: schema.dfy ===
/**
  The four creation mutations of the CRM (schema.py): createCustomer,
  bulkCreateCustomers, createProduct and createOrder. Each single creation
  returns either the new store together with the created entity, or an error
  and no store at all, so a failed call leaves the store as it was. The batch
  never fails as a whole: it returns a BulkOutcome holding the store after the
  accepted items and one error per rejected item.
 */
module Schema {
  import opened Wrappers
  import opened Entities
  import opened Phone

  datatype Error =
    | DuplicateEmail(email: string)
    | InvalidPhoneFormat(phone: string)
    | InvalidPrice
    | InvalidStock
    | CustomerNotFound
    | NoValidProducts
    | InvalidDateFormat(text: string)

  /** The message a single mutation raises for each error. */
  function Describe(e: Error): string {
    match e
    case DuplicateEmail(_) => "Email already exists"
    case InvalidPhoneFormat(_) => "Phone format invalid"
    case InvalidPrice => "Price must be positive"
    case InvalidStock => "Stock cannot be negative"
    case CustomerNotFound => "Customer does not exist"
    case NoValidProducts => "No valid products selected"
    case InvalidDateFormat(t) => "Invalid isoformat string: '" + t + "'"
  }

  /** The text bulk creation records for a rejected item. The item's
      validation error names the offending value, and its string form renders
      that one message as a one-element list. */
  function BulkDescribe(e: Error): string {
    match e
    case DuplicateEmail(m) => "['Email " + m + " already exists']"
    case InvalidPhoneFormat(p) => "['Phone format invalid for " + p + "']"
    case _ => "['" + Describe(e) + "']"
  }

  /** A phone that is present, non-empty and of neither accepted shape. */
  predicate PhoneRejected(phone: Option<string>) {
    phone.Some? && phone.value != [] && !PhoneShape(phone.value)
  }

  // ---------------------------------------------------------------------------
  // createCustomer
  // ---------------------------------------------------------------------------

  datatype CustomerInput = CustomerInput(name: string, email: string, phone: Option<string>)

  function CreateCustomer(s: Store, input: CustomerInput): (r: Result<(Store, Customer), Error>)
    ensures r.Failure? <==> EmailTaken(s.customers, input.email) || PhoneRejected(input.phone)
    ensures EmailTaken(s.customers, input.email) ==> r == Failure(DuplicateEmail(input.email))
    ensures !EmailTaken(s.customers, input.email) && PhoneRejected(input.phone) ==>
              r == Failure(InvalidPhoneFormat(input.phone.value))
    ensures r.Success? ==>
              var (s', c) := r.value;
              && c.id == |s.customers| + 1
              && c.name == input.name && c.email == input.email && c.phone == input.phone
              && s' == s.(customers := s.customers + [c])
  {
    if HasEmail(s.customers, input.email) then
      Failure(DuplicateEmail(input.email))
    else if !PhoneAccepted(input.phone) then
      Failure(InvalidPhoneFormat(input.phone.value))
    else
      var c := Customer(|s.customers| + 1, input.name, input.email, input.phone);
      Success((s.(customers := s.customers + [c]), c))
  }

  // ---------------------------------------------------------------------------
  // bulkCreateCustomers
  // ---------------------------------------------------------------------------

  /** What a batch leaves behind: the store, the customers it created and the
      errors of the items it rejected, each in input order. */
  datatype BulkOutcome = BulkOutcome(store: Store, customers: seq<Customer>, rejected: seq<Error>) {
    /** The `errors` list of the response: one text per rejected item, in
        the order the items were rejected, naming the offending value. */
    function Errors(): (m: seq<string>)
      ensures |m| == |rejected|
      ensures forall k :: 0 <= k < |m| ==> m[k] == BulkDescribe(rejected[k])
      ensures forall k :: 0 <= k < |m| && rejected[k].DuplicateEmail? ==>
                m[k] == "['Email " + rejected[k].email + " already exists']"
      ensures forall k :: 0 <= k < |m| && rejected[k].InvalidPhoneFormat? ==>
                m[k] == "['Phone format invalid for " + rejected[k].phone + "']"
    {
      seq(|rejected|, k requires 0 <= k < |rejected| => BulkDescribe(rejected[k]))
    }
  }

  /** Items are created one after another, each against the store the earlier
      items left behind; a rejected item adds a message and the batch goes on. */
  function BulkCreateCustomers(s: Store, input: seq<CustomerInput>): (r: BulkOutcome)
    ensures |r.customers| + |r.rejected| == |input|
    ensures r.store == s.(customers := s.customers + r.customers)
    decreases |input|
  {
    if input == [] then BulkOutcome(s, [], [])
    else
      var done := BulkCreateCustomers(s, input[..|input| - 1]);
      var item := CreateCustomer(done.store, input[|input| - 1]);
      if item.Success? then
        BulkOutcome(item.value.0, done.customers + [item.value.1], done.rejected)
      else
        BulkOutcome(done.store, done.customers, done.rejected + [item.error])
  }

  // ---------------------------------------------------------------------------
  // createProduct
  // ---------------------------------------------------------------------------

  /** `stock` is None when the caller omits it; it then defaults to 0. */
  function CreateProduct(s: Store, name: string, price: int, stock: Option<int>): (r: Result<(Store, Product), Error>)
    ensures price <= 0 ==> r == Failure(InvalidPrice)
    ensures price > 0 && stock.Some? && stock.value < 0 ==> r == Failure(InvalidStock)
    ensures r.Failure? <==> price <= 0 || (stock.Some? && stock.value < 0)
    ensures r.Success? ==>
              var (s', p) := r.value;
              && p.price == price > 0
              && p.stock >= 0
              && p.stock == (if stock.Some? then stock.value else 0)
              && p.name == name
              && p.id == |s.products| + 1
              && s' == s.(products := s.products + [p])
  {
    var amount := if stock.Some? then stock.value else 0;
    if price <= 0 then Failure(InvalidPrice)
    else if amount < 0 then Failure(InvalidStock)
    else
      var p := Product(|s.products| + 1, name, price, amount);
      Success((s.(products := s.products + [p]), p))
  }

  // ---------------------------------------------------------------------------
  // createOrder
  // ---------------------------------------------------------------------------

  /** The order date: parsed when a non-empty text is given, the current time otherwise. */
  function OrderDate(text: Option<string>, parseIso: string -> Option<Timestamp>, now: Timestamp): Result<Timestamp, Error> {
    if text.Some? && text.value != [] then
      match parseIso(text.value)
      case Some(d) => Success(d)
      case None => Failure(InvalidDateFormat(text.value))
    else
      Success(now)
  }

  /** The ids asked for that name an existing product; unknown ids are dropped
      and repeated ids collapse. */
  function RequestedExisting(s: Store, productIds: seq<int>): set<int> {
    (set id | id in productIds) * ProductIds(s.products)
  }

  /** Customer lookup, then product resolution, then the date; the order row,
      its product links and its total are written together or not at all. */
  function CreateOrder(s: Store, customerId: int, productIds: seq<int>, orderDate: Option<string>,
                       parseIso: string -> Option<Timestamp>, now: Timestamp): (r: Result<(Store, Order), Error>)
    ensures customerId !in CustomerIds(s.customers) ==> r == Failure(CustomerNotFound)
    ensures customerId in CustomerIds(s.customers) && RequestedExisting(s, productIds) == {} ==>
              r == Failure(NoValidProducts)
    ensures r.Failure? <==>
              || customerId !in CustomerIds(s.customers)
              || RequestedExisting(s, productIds) == {}
              || (orderDate.Some? && orderDate.value != [] && parseIso(orderDate.value).None?)
    ensures r.Success? ==>
              var (s', o) := r.value;
              && o.customerId == customerId
              && customerId in CustomerIds(s.customers)
              && o.productIds == RequestedExisting(s, productIds) != {}
              && o.total == SumPrices(Resolve(s.products, o.productIds))
              && o.orderDate == (if orderDate.Some? && orderDate.value != [] then parseIso(orderDate.value).value else now)
              && o.id == |s.orders| + 1
              && s' == s.(orders := s.orders + [o])
  {
    match FindCustomer(s.customers, customerId)
    case None =>
      Failure(CustomerNotFound)
    case Some(customer) =>
      var products := Resolve(s.products, set id | id in productIds);
      ResolvedIds(s.products, set id | id in productIds);
      if products == [] then
        Failure(NoValidProducts)
      else
        assert products[0].id in ProductIds(products);
        match OrderDate(orderDate, parseIso, now)
        case Failure(e) => Failure(e)
        case Success(date) =>
          ResolveOnlyExisting(s.products, set id | id in productIds);
          var o := Order(|s.orders| + 1, customer.id, ProductIds(products), SumPrices(products), date);
          Success((s.(orders := s.orders + [o]), o))
  }
}

=== FILE: schema_properties.dfy ===
/**
  Properties of the creation mutations that relate several calls or several
  states: the store invariant is preserved, an email is never accepted twice,
  bulk creation is the left-to-right sequence of single creations, and an
  order depends only on the requested ids that exist.
 */
module SchemaProperties {
  import opened Wrappers
  import opened Entities
  import opened Schema

  // ---------------------------------------------------------------------------
  // The store invariant
  // ---------------------------------------------------------------------------

  lemma CreateCustomerPreservesValid(s: Store, input: CustomerInput)
    requires Valid(s)
    ensures CreateCustomer(s, input).Success? ==> Valid(CreateCustomer(s, input).value.0)
  {
    var r := CreateCustomer(s, input);
    if r.Success? {
      var (s', c) := r.value;
      CustomerIdsAppend(s.customers, c);
      forall o | o in s'.orders ensures OrderSound(s', o) {
        assert OrderSound(s, o);
      }
    }
  }

  lemma CreateProductPreservesValid(s: Store, name: string, price: int, stock: Option<int>)
    requires Valid(s)
    ensures CreateProduct(s, name, price, stock).Success? ==>
              Valid(CreateProduct(s, name, price, stock).value.0)
    ensures CreateProduct(s, name, price, stock).Success? ==>
              forall o :: o in s.orders ==>
                Resolve(CreateProduct(s, name, price, stock).value.0.products, o.productIds) ==
                Resolve(s.products, o.productIds)
  {
    var r := CreateProduct(s, name, price, stock);
    if r.Success? {
      var (s', p) := r.value;
      assert s'.products == s.products + [p];
      ProductIdsAppend(s.products, p);
      ProductIdsBounded(s.products);
      assert ProductIdsSequential(s'.products);
      assert ProductsSound(s'.products);
      forall o | o in s'.orders ensures OrderSound(s', o) {
        OrderSoundAfterProductAppend(s, p, o);
      }
    }
  }

  lemma CreateOrderPreservesValid(s: Store, customerId: int, productIds: seq<int>, orderDate: Option<string>,
                                  parseIso: string -> Option<Timestamp>, now: Timestamp)
    requires Valid(s)
    ensures var r := CreateOrder(s, customerId, productIds, orderDate, parseIso, now);
            r.Success? ==> Valid(r.value.0)
  {
    var r := CreateOrder(s, customerId, productIds, orderDate, parseIso, now);
    if r.Success? {
      var (s', o) := r.value;
      forall o' | o' in s'.orders ensures OrderSound(s', o') {
        if o' != o {
          assert o' in s.orders;
          assert OrderSound(s, o');
        }
      }
    }
  }

  /** A product with a new id leaves every existing order's resolution and total alone. */
  lemma OrderSoundAfterProductAppend(s: Store, p: Product, o: Order)
    requires OrderSound(s, o)
    requires p.id !in ProductIds(s.products)
    ensures Resolve(s.products + [p], o.productIds) == Resolve(s.products, o.productIds)
    ensures OrderSound(s.(products := s.products + [p]), o)
  {
    var s' := s.(products := s.products + [p]);
    assert p.id !in o.productIds;
    ResolveAppend(s.products, p, o.productIds);
    assert Resolve(s'.products, o.productIds) == Resolve(s.products, o.productIds);
    ProductIdsAppend(s.products, p);
    assert o.productIds <= ProductIds(s'.products);
  }

  lemma {:induction false} BulkPreservesValid(s: Store, input: seq<CustomerInput>)
    requires Valid(s)
    ensures Valid(BulkCreateCustomers(s, input).store)
    decreases |input|
  {
    if input != [] {
      var done := BulkCreateCustomers(s, input[..|input| - 1]);
      BulkPreservesValid(s, input[..|input| - 1]);
      CreateCustomerPreservesValid(done.store, input[|input| - 1]);
    }
  }

  // ---------------------------------------------------------------------------
  // Email uniqueness across calls
  // ---------------------------------------------------------------------------

  /** Once a customer has been created with an email, creating another with the
      same email fails as a duplicate. */
  lemma SameEmailNeverTwice(s: Store, first: CustomerInput, second: CustomerInput)
    requires first.email == second.email
    requires CreateCustomer(s, first).Success?
    ensures CreateCustomer(CreateCustomer(s, first).value.0, second) == Failure(DuplicateEmail(second.email))
  {
    var s' := CreateCustomer(s, first).value.0;
    assert s'.customers[|s'.customers| - 1].email == second.email;
  }

  // ---------------------------------------------------------------------------
  // Bulk creation is sequential
  // ---------------------------------------------------------------------------

  /** Item i is judged by createCustomer against the store left by items
      0..i-1: on success it appends exactly one customer, on failure exactly
      one message, and in both cases the batch continues. */
  lemma BulkItemOutcome(s: Store, input: seq<CustomerInput>, i: int)
    requires 0 <= i < |input|
    ensures var before := BulkCreateCustomers(s, input[..i]);
            var after := BulkCreateCustomers(s, input[..i + 1]);
            var r := CreateCustomer(before.store, input[i]);
            if r.Success? then
              after == BulkOutcome(r.value.0, before.customers + [r.value.1], before.rejected)
            else
              after == BulkOutcome(before.store, before.customers, before.rejected + [r.error])
  {
    assert input[..i + 1][..i] == input[..i];
  }

  /** Errors of the two kinds the bulk loop body raises. */
  predicate InputErrorsOnly(errors: seq<Error>) {
    forall k :: 0 <= k < |errors| ==> errors[k].DuplicateEmail? || errors[k].InvalidPhoneFormat?
  }

  /** A batch rejects an item only for a taken email or an ill-shaped phone,
      the two checks of the loop body. */
  lemma {:induction false} BulkRejectsOnlyInputErrors(s: Store, input: seq<CustomerInput>)
    ensures InputErrorsOnly(BulkCreateCustomers(s, input).rejected)
    decreases |input|
  {
    if input != [] {
      var done := BulkCreateCustomers(s, input[..|input| - 1]);
      var item := CreateCustomer(done.store, input[|input| - 1]);
      BulkRejectsOnlyInputErrors(s, input[..|input| - 1]);
      if item.Failure? {
        if !EmailTaken(done.store.customers, input[|input| - 1].email) {
          assert PhoneRejected(input[|input| - 1].phone);
        }
        assert BulkCreateCustomers(s, input).rejected == done.rejected + [item.error];
      } else {
        assert BulkCreateCustomers(s, input).rejected == done.rejected;
      }
    }
  }

  /** Later items only ever add customers: the customers table after i items
      is a prefix of the table after j >= i items. */
  lemma BulkCustomersGrow(s: Store, input: seq<CustomerInput>, i: int, j: int)
    requires 0 <= i <= j <= |input|
    ensures BulkCreateCustomers(s, input[..i]).store.customers <= BulkCreateCustomers(s, input[..j]).store.customers
  {
    assert input[..i] <= input[..j];
    BulkPrefixGrows(s, input[..i], input[..j]);
  }

  /** The batch of a prefix of the items creates a prefix of the customers. */
  lemma {:induction false} BulkPrefixGrows(s: Store, a: seq<CustomerInput>, b: seq<CustomerInput>)
    requires a <= b
    ensures BulkCreateCustomers(s, a).store.customers <= BulkCreateCustomers(s, b).store.customers
    decreases |b|
  {
    if |a| == |b| {
      assert a == b;
    } else {
      var init := b[..|b| - 1];
      assert a <= init;
      BulkPrefixGrows(s, a, init);
      BulkLastGrows(s, b);
      PrefixTransitive(BulkCreateCustomers(s, a).store.customers,
                       BulkCreateCustomers(s, init).store.customers,
                       BulkCreateCustomers(s, b).store.customers);
    }
  }

  lemma BulkLastGrows(s: Store, b: seq<CustomerInput>)
    requires b != []
    ensures BulkCreateCustomers(s, b[..|b| - 1]).store.customers <= BulkCreateCustomers(s, b).store.customers
  {
  }

  lemma PrefixTransitive<T>(a: seq<T>, b: seq<T>, c: seq<T>)
    requires a <= b && b <= c
    ensures a <= c
  {
    assert a == b[..|a|] && b == c[..|b|];
  }

  /** An email item i was created with is taken in every later store of the batch. */
  lemma BulkCreatedEmailStays(s: Store, input: seq<CustomerInput>, i: int, j: int)
    requires 0 <= i < j <= |input|
    requires CreateCustomer(BulkCreateCustomers(s, input[..i]).store, input[i]).Success?
    ensures EmailTaken(BulkCreateCustomers(s, input[..j]).store.customers, input[i].email)
  {
    BulkCreatedIsLast(s, input, i);
    BulkCustomersGrow(s, input, i + 1, j);
    var mid := BulkCreateCustomers(s, input[..i + 1]).store.customers;
    EmailStaysInLongerTable(mid, BulkCreateCustomers(s, input[..j]).store, |mid| - 1);
  }

  /** A created item is the last customer of the store it leaves behind. */
  lemma BulkCreatedIsLast(s: Store, input: seq<CustomerInput>, i: int)
    requires 0 <= i < |input|
    requires CreateCustomer(BulkCreateCustomers(s, input[..i]).store, input[i]).Success?
    ensures var mid := BulkCreateCustomers(s, input[..i + 1]).store.customers;
            |mid| > 0 && mid[|mid| - 1].email == input[i].email
  {
    BulkItemOutcome(s, input, i);
  }

  /** A customer at index k of a prefix of the table keeps its email taken. */
  lemma EmailStaysInLongerTable(prefix: seq<Customer>, s: Store, k: int)
    requires prefix <= s.customers
    requires 0 <= k < |prefix|
    ensures EmailTaken(s.customers, prefix[k].email)
  {
    assert s.customers[k] == prefix[k];
  }

  /** Two items of one batch share an email and the earlier one was created:
      the later one is rejected as a duplicate. */
  lemma BulkDuplicateInBatch(s: Store, input: seq<CustomerInput>, i: int, j: int)
    requires 0 <= i < j < |input|
    requires input[i].email == input[j].email
    requires CreateCustomer(BulkCreateCustomers(s, input[..i]).store, input[i]).Success?
    ensures CreateCustomer(BulkCreateCustomers(s, input[..j]).store, input[j]) == Failure(DuplicateEmail(input[j].email))
  {
    BulkCreatedEmailStays(s, input, i, j);
  }

  // ---------------------------------------------------------------------------
  // Order product resolution
  // ---------------------------------------------------------------------------

  /** Two requests that name the same existing products, whatever unknown or
      repeated ids they carry besides, create the same order. */
  lemma OrderDependsOnlyOnExistingIds(s: Store, customerId: int, ids1: seq<int>, ids2: seq<int>,
                                      orderDate: Option<string>, parseIso: string -> Option<Timestamp>, now: Timestamp)
    requires RequestedExisting(s, ids1) == RequestedExisting(s, ids2)
    ensures CreateOrder(s, customerId, ids1, orderDate, parseIso, now) ==
            CreateOrder(s, customerId, ids2, orderDate, parseIso, now)
  {
    ResolveSameOnTable(s.products, set id | id in ids1, set id | id in ids2);
  }
}

=== FILE: text.dfy ===
/**
  Decimal digits and the rendering of a count the way Python's f-string
  formatting of an `int` writes it, together with a reader that recovers the
  count from the head of a message.
 */
module Text {

  predicate IsDigit(c: char) {
    '0' <= c <= '9'
  }

  predicate AllDigits(s: string) {
    forall i :: 0 <= i < |s| ==> IsDigit(s[i])
  }

  function DigitChar(d: nat): (c: char)
    requires d < 10
    ensures IsDigit(c)
  {
    (('0' as int) + d) as char
  }

  function DigitValue(c: char): (d: nat)
    requires IsDigit(c)
    ensures d < 10
  {
    (c as int) - ('0' as int)
  }

  /** The decimal text of n: most significant digit first, no leading zeros. */
  function NatToDecimal(n: nat): (s: string)
    ensures 1 <= |s|
    ensures AllDigits(s)
    ensures |s| > 1 ==> s[0] != '0'
    decreases n
  {
    if n < 10 then [DigitChar(n)]
    else NatToDecimal(n / 10) + [DigitChar(n % 10)]
  }

  /** The number an all-digit string denotes. */
  function DecimalValue(s: string): nat
    requires AllDigits(s)
    decreases |s|
  {
    if s == [] then 0
    else DecimalValue(s[..|s| - 1]) * 10 + DigitValue(s[|s| - 1])
  }

  /** The longest all-digit prefix of s. */
  function LeadingDigits(s: string): (r: string)
    ensures r <= s
    ensures AllDigits(r)
    ensures |r| < |s| ==> !IsDigit(s[|r|])
    decreases |s|
  {
    if s == [] || !IsDigit(s[0]) then []
    else [s[0]] + LeadingDigits(s[1..])
  }

  /** The count a message announces in its leading digits. */
  function LeadingNumber(s: string): nat {
    DecimalValue(LeadingDigits(s))
  }

  lemma {:induction false} DecimalRoundTrip(n: nat)
    ensures DecimalValue(NatToDecimal(n)) == n
    decreases n
  {
    if n >= 10 {
      var s := NatToDecimal(n);
      DecimalRoundTrip(n / 10);
      assert s[..|s| - 1] == NatToDecimal(n / 10);
      assert DigitValue(s[|s| - 1]) == n % 10;
    }
  }

  lemma {:induction false} LeadingDigitsOfDigits(d: string, suffix: string)
    requires AllDigits(d)
    requires suffix == [] || !IsDigit(suffix[0])
    ensures LeadingDigits(d + suffix) == d
    decreases |d|
  {
    if d != [] {
      assert (d + suffix)[1..] == d[1..] + suffix;
      LeadingDigitsOfDigits(d[1..], suffix);
    } else {
      assert d + suffix == suffix;
    }
  }

  /** Reading back the leading count of `NatToDecimal(n) + suffix` yields n,
      provided the suffix does not itself start with a digit. */
  lemma LeadingNumberOfDecimal(n: nat, suffix: string)
    requires suffix == [] || !IsDigit(suffix[0])
    ensures LeadingNumber(NatToDecimal(n) + suffix) == n
  {
    LeadingDigitsOfDigits(NatToDecimal(n), suffix);
    DecimalRoundTrip(n);
  }
}

=== FILE: wrappers.dfy ===
/** Option and Result: Option for optional fields and lookups, Result for the values the single creation mutations return. */
module Wrappers {

  datatype Option<+T> = None | Some(value: T)

  /** A single creation either succeeds with a value or fails with an error, never both. */
  datatype Result<+R, +E> = Success(value: R) | Failure(error: E)
}
